=== FILE: README.md ===
# Hex-dump codec of `shell.py`, in Dafny

`shell.py` reads a textual hex dump of a small disk image and writes it back
out in canonical form. A dump is two ruler lines followed by one data line
per row:

```
XX:                1               2               3
XX:0123456789ABCDEF0123456789ABCDEF0123456789ABCDEF0123456789ABCDEF
00:<row text without its first character>0
01:...
```

`contentsToRaw` decodes a dump. It drops the two ruler lines. From each data
line it removes the three-character label `II:` and the final filler
character. It puts the implicit `'0'` nibble in front and cuts the result
into two-character chunks. `rawToContents` encodes. It joins each row's
chunks, drops the first character, appends a `'0'` filler and puts the
zero-padded uppercase hexadecimal row index and a colon in front. The ruler
header goes first. `main` runs decode then encode on a file and prints the
result.

Chunks stay strings throughout. The code parses no bytes, validates no hex
digit and has no error path. The model does the same.

The project has three modules:

- `PyStr` (`py_str.dfy`) models the Python built-ins the codec relies on.
  These are slicing with negative and out-of-range bounds, `''.join`,
  `'\n'.join`, `str.splitlines` on `'\n'`-separated text, and
  `hex(n)[2:].upper()`.
- `Shell` (`shell.dfy`) holds `zeroPad2`, `contentsToRaw`, `rawToContents`
  and the per-line steps they are built from.
- `RoundTrip` (`round_trip.dfy`) relates the two directions. Decoding an
  encoded dump gives the rows back. Decode-then-encode (what `main` does)
  settles after one pass when there are at most 256 data lines
  (`RoundTrip.NormaliseIdempotent`), and not when there are more
  (`RoundTrip.NotSettledPast256`). Two ways the round trip breaks are
  shown; rows that are not well formed (defined below) can break it too,
  for example `["11"]` is written as `00:10` and read back as `["01"]`
  (`RoundTrip.LeadingNibbleLost`).

A *well-formed row* is one the dump format can carry. It has at least one
chunk. Every chunk has two characters, except the last, which has one or
two. The first character is `'0'`, and no chunk holds a line boundary. This
is exactly the shape decoding produces: every decoded row is well formed
(`RoundTrip.DecodedRowsWellFormed`), and every well-formed row is what
decoding its own data line produces (`RoundTrip.DecodeEncodeLine`).

Two edges of the format are proved rather than assumed:

- Labels are two digits only below 256. Row 256 is labelled `100`. Decoding
  always cuts three characters, so the colon stays in the row, which comes
  back with `"0:"` as its first chunk (`RoundTrip.LabelOverflowAt256`). The
  round trip is therefore stated for at most 256 rows: two-digit labels
  cover rows 0 to 255 (shell.py:27) and decoding always cuts three
  characters (shell.py:12). `main` reads at most `MAX_FILE_DATA` = 4096
  characters (shell.py:1, 34). After the 121-character header that leaves
  room for 58 full 67-character data lines (68 with the newline), so the
  limit does not arise for dumps of full-width lines read by `main`. Short
  lines do let `main` read more than 256 data lines (257 empty lines after
  the header take 378 characters), and decode-then-encode then does not
  settle: every further pass leaves one more colon in the data line of row
  256 (`RoundTrip.NotSettledPast256`).
- An empty row is encoded as `II:0` and comes back as `["0"]`
  (`RoundTrip.EmptyRowComesBackAsZero`).

## Model

| member | source | states |
|---|---|---|
| Shell.ZeroPad2 | shell.py:3-7 | the result is the input with only `'0'`s added on the left; a one-character string becomes two characters, any other string (the empty one included) is returned unchanged |
| Shell.Label | shell.py:27 | a row label is exactly two characters for rows below 256 and at least three from row 256 on |
| Shell.LabelValue | shell.py:27 | a row label is an uppercase hexadecimal numeral whose value is the row index, so different rows get different labels |
| PyStr.UpperHex | shell.py:27 | `hex(i)[2:].upper()` is uppercase hex digits only, one digit exactly below 16, at most two below 256 and at least three from 256 on |
| PyStr.HexValueOfUpperHex | shell.py:27 | `hex(i)[2:].upper()` is worth exactly `i` |
| PyStr.UpperHexNoLeadingZero | shell.py:27 | `hex(i)[2:].upper()` has no leading zero for a positive `i` |
| PyStr.Join | shell.py:23 | `''.join`: no parts give the empty text and one part is returned unchanged; its partners are `Shell.JoinChunks` and `Shell.ChunksOfJoin` (chunking inverts it) and `PyStr.JoinLength` and `PyStr.JoinAppend` below |
| PyStr.JoinLength | shell.py:23 | `''.join` adds nothing between the parts: the result is exactly as long as all parts together |
| PyStr.JoinAppend | shell.py:23 | joining two lists of parts one after the other is joining each and concatenating the results |
| PyStr.JoinLines | shell.py:29 | `'\n'.join`: no lines give the empty text and one line is returned unchanged; its partners are `PyStr.JoinSplitOnNewline` and `PyStr.SplitOnNewlineOfJoin` (cutting at `'\n'` inverts it), `PyStr.JoinLinesSnoc` and `PyStr.JoinLinesLength` |
| PyStr.JoinLinesLength | shell.py:29 | `'\n'.join` puts one separator between neighbouring lines and none after the last: the length is the lines' total plus one less than their number |
| PyStr.JoinLinesSnoc | shell.py:29 | appending a line to the list adds one `'\n'` and that line to the joined text, with nothing after it |
| PyStr.JoinSplitOnNewline | shell.py:29 | cutting a text at every `'\n'` and joining the pieces with `'\n'` gives the text back |
| PyStr.SplitOnNewlineOfJoin | shell.py:29 | joining a nonempty list of lines free of `'\n'` and cutting at every `'\n'` gives the lines back |
| PyStr.Slice | shell.py:12 | Python slicing: the ordinary subsequence for in-range bounds, the tail when the upper bound runs past the end, and empty when the bounds cross or the text is empty |
| PyStr.SplitLines | shell.py:10 | `splitlines` on `'\n'`-separated text: no lines exactly for the empty text, and no line holds `'\n'` |
| PyStr.SplitLinesChars | shell.py:10 | `splitlines` moves no character: every character of a line is a character of the text |
| PyStr.SplitLinesCons | shell.py:10 | a line free of line boundaries, a `'\n'` and a nonempty rest split into that line followed by the lines of the rest |
| PyStr.SplitLinesLosesNothing | shell.py:10 | joining the lines with `'\n'` gives the text back, less the final `'\n'` when there is one |
| PyStr.SplitLinesOfJoinLines | shell.py:29 | `'\n'.join` followed by `splitlines` returns the lines when none holds a line boundary and the last one is not empty |
| PyStr.SplitLinesOfJoinLinesNewline | shell.py:28-29 | the same with a final `'\n'` after the last line, for any nonempty list of such lines |
| Shell.LineDigits | shell.py:12-14 | the digits of a data line are `'0'` followed by the line without its first three and its last character; a line of four characters or fewer gives just `"0"` |
| Shell.Chunks | shell.py:17 | `[s[j:j+2] for j in range(0, len(s), 2)]` has `ceil(len(s)/2)` chunks, all two characters long except the last, which is one character long when `len(s)` is odd |
| Shell.JoinChunks | shell.py:17 | chunking loses nothing: the chunks joined give the text back |
| Shell.ChunksOfJoin | shell.py:17 | on rows of the chunked shape, chunking is the inverse of `''.join` |
| Shell.DecodeLine | shell.py:12-17 | a data line's row joins back to the line's digits and has the chunked shape starting with `'0'`; a line of four characters or fewer gives `["0"]`, a line of `n >= 4` characters gives `(n-2)/2` chunks with a one-character last chunk exactly when `n` is even, and a 67-character line gives 32 two-character chunks |
| Shell.ContentsToRaw | shell.py:9-18 | decoding gives no rows for text of at most two lines and otherwise one row per line after the first two, in order; row `i` joins back to the digits of line `i + 2` and has the chunked shape |
| Shell.EncodeLine | shell.py:22-27 | every data line has at least four characters and ends with the `'0'` filler |
| Shell.EncodeLineShape | shell.py:22-27 | below row 256 a data line is the two-character label, a colon, the row text from its second character on and the filler, three characters longer than a nonempty row text; an empty row gives the label, the colon and the filler |
| Shell.RawToContents | shell.py:20-30 | the dump starts with the two-line ruler header, is exactly that header when there are no rows, and otherwise ends with the last line's `'0'` filler, with no newline after it |
| RoundTrip.HeaderLines | shell.py:28 | the ruler lines hold no line boundary and the header is the two of them each followed by `'\n'` |
| RoundTrip.EncodeLineNoLineBreaks | shell.py:22-27 | a data line holds no line boundary when its row holds none |
| RoundTrip.SplitEncoded | shell.py:28-29 | for rows free of line boundaries, the lines of an encoded dump are the two ruler lines followed by one data line per row, in order |
| RoundTrip.DecodeEncodeLine | shell.py:12-27 | below row 256 a well-formed row survives encoding to a data line and decoding it again |
| RoundTrip.RoundTrip | shell.py:9-30 | decoding an encoded dump of at most 256 well-formed rows gives the rows back |
| RoundTrip.TextRoundTrip | shell.py:36-37 | decoding then re-encoding a dump of at most 256 well-formed rows gives the same text back |
| RoundTrip.DecodeLineWellFormed | shell.py:12-17 | a data line free of line boundaries decodes to a well-formed row |
| RoundTrip.DecodedRowsWellFormed | shell.py:9-18 | every row decoding produces, from any `'\n'`-separated text, is well formed |
| RoundTrip.NormaliseIdempotent | shell.py:36-37 | `main`'s decode-then-encode, applied to its own output, changes nothing when there are at most 256 data lines |
| RoundTrip.EmptyRowComesBackAsZero | shell.py:14-26 | for rows free of line boundaries and at most 256 of them, an empty row does not survive the round trip: it comes back as the single chunk `"0"` |
| RoundTrip.Label256 | shell.py:27 | row 256 is labelled `"100"` |
| RoundTrip.DigitsAt256 | shell.py:12-27 | decoding the data line of row 256 keeps the colon: its digits are `"0:"` followed by the row text from its second character on |
| RoundTrip.LabelOverflowAt256 | shell.py:12-27 | for more than 256 rows free of line boundaries, row 256 comes back with first chunk `"0:"`, and a well-formed row 256 comes back one character longer, so it does not survive the round trip |
| Shell.EncodeLineLength | shell.py:25-27 | a data line is one character longer than its label and nonempty row text together, and two longer than the label for an empty row text |
| RoundTrip.LeadingNibbleLost | shell.py:12-27 | a row whose first character is not `'0'` does not survive: `["11"]` becomes the data line `00:10`, which decodes to `["01"]` |
| RoundTrip.NotSettledPast256 | shell.py:36-37 | for `'\n'`-separated text with more than 256 data lines, decoding then encoding the output of one decode-then-encode pass changes it again |

## Left out

- `main` (shell.py:32-42) is left out: it reads a hard-coded file, limits the read to `MAX_FILE_DATA` characters (shell.py:1, 34) and prints. Its decode-then-encode composition is modelled by `RoundTrip.TextRoundTrip` and `RoundTrip.NormaliseIdempotent`.
- Shell.ContentsToRaw: requires text whose only line boundary is `'\n'`. Python's `splitlines` also splits at `'\r'`, `'\r\n'`, `'\x0b'`, `'\x0c'`, `'\x1c'`-`'\x1e'`, `'\x85'`, `'\u2028'` and `'\u2029'`, and those cases are not modelled.
- PyStr.SplitLines: the same restriction to `'\n'`-separated text. A final `'\n'` is modelled.
- RoundTrip.RoundTrip: stated for at most 256 rows and for rows free of line boundaries. Outside those limits the round trip does not hold, as `RoundTrip.LabelOverflowAt256` and the line-splitting of `splitlines` show.
- `shell.py` parses no bytes, rejects no line and interprets no cluster. Rows are lists of strings and every input decodes.

=== FILE: py_str.dfy ===
/** The Python string and list built-ins the hex-dump codec is written with,
    modelled for the inputs the codec gives them: slicing, `''.join`,
    `'\n'.join`, `str.splitlines` on newline-separated text, and
    `hex(n)[2:].upper()`. Strings are sequences of characters; nothing here
    validates hex digits, exactly as the codec does not. */
module PyStr {

  /** The characters Python's `str.splitlines` treats as line boundaries. */
  predicate IsLineBreak(c: char) {
    || c == '\n' || c == '\r'
    || c == '\U{0B}' || c == '\U{0C}'
    || c == '\U{1C}' || c == '\U{1D}' || c == '\U{1E}'
    || c == '\U{85}' || c == '\U{2028}' || c == '\U{2029}'
  }

  /** No line boundary of any kind occurs in `s`. */
  predicate NoLineBreaks(s: seq<char>) {
    forall c :: c in s ==> !IsLineBreak(c)
  }

  /** The only line boundary that occurs in `s` is `'\n'`: the text on which
      `SplitLines` below agrees with Python's `str.splitlines`. */
  predicate OnlyNewlineBreaks(s: seq<char>) {
    forall c :: c in s ==> c == '\n' || !IsLineBreak(c)
  }

  /** Python's normalisation of a slice bound: a negative bound counts from
      the end, and the result is clamped into `[0, len]`. */
  function SliceBound(len: nat, i: int): (b: nat)
    ensures b <= len
    ensures 0 <= i <= len ==> b == i
    ensures -(len as int) <= i < 0 ==> b == len + i
    ensures i < -(len as int) ==> b == 0
    ensures len < i ==> b == len
  {
    if i < 0 then (if i + len < 0 then 0 else i + len)
    else if i > len then len
    else i
  }

  /** Python's `s[lo:hi]`: never fails; empty once the normalised bounds
      cross. */
  function Slice<T>(s: seq<T>, lo: int, hi: int): (r: seq<T>)
    ensures 0 <= lo <= hi <= |s| ==> r == s[lo..hi]
    ensures 0 <= lo <= |s| <= hi ==> r == s[lo..]
    ensures 0 <= hi <= lo ==> r == []
    ensures s == [] ==> r == []
  {
    var a := SliceBound(|s|, lo);
    var b := SliceBound(|s|, hi);
    if a < b then s[a..b] else []
  }

  /** Text free of line boundaries stays free of them when concatenated. */
  lemma ConcatNoLineBreaks(a: seq<char>, b: seq<char>)
    requires NoLineBreaks(a) && NoLineBreaks(b)
    ensures NoLineBreaks(a + b)
  {
  }

  /** A slice holds only characters of the text it was cut from. */
  lemma SliceNoLineBreaks(s: seq<char>, lo: int, hi: int)
    requires NoLineBreaks(s)
    ensures NoLineBreaks(Slice(s, lo, hi))
  {
    var r := Slice(s, lo, hi);
    var a := SliceBound(|s|, lo);
    forall c | c in r
      ensures !IsLineBreak(c)
    {
      var k :| 0 <= k < |r| && r[k] == c;
      assert r[k] == s[a + k];
    }
  }

  /** The total length of a list of strings. */
  function TotalLength(parts: seq<seq<char>>): nat {
    if parts == [] then 0 else |parts[0]| + TotalLength(parts[1..])
  }

  /** Python's `''.join(parts)`. */
  function Join(parts: seq<seq<char>>): (r: seq<char>)
    ensures parts == [] ==> r == []
    ensures |parts| == 1 ==> r == parts[0]
  {
    if parts == [] then [] else parts[0] + Join(parts[1..])
  }

  /** The joined text is as long as all parts together: nothing is added
      between them. */
  lemma {:induction false} JoinLength(parts: seq<seq<char>>)
    ensures |Join(parts)| == TotalLength(parts)
  {
    if parts != [] {
      JoinLength(parts[1..]);
    }
  }

  /** Joining two lists is joining each and concatenating the results. */
  lemma {:induction false} JoinAppend(a: seq<seq<char>>, b: seq<seq<char>>)
    ensures Join(a + b) == Join(a) + Join(b)
  {
    if a == [] {
      assert a + b == b;
    } else {
      JoinAppend(a[1..], b);
      assert (a + b)[0] == a[0];
      assert (a + b)[1..] == a[1..] + b;
    }
  }

  /** Python's `'\n'.join(lines)`: a separator between lines, none after the
      last one. */
  function JoinLines(lines: seq<seq<char>>): (r: seq<char>)
    ensures lines == [] ==> r == []
    ensures |lines| == 1 ==> r == lines[0]
  {
    if |lines| == 0 then []
    else if |lines| == 1 then lines[0]
    else lines[0] + "\n" + JoinLines(lines[1..])
  }

  /** The joined text is the lines' total length plus one separator fewer
      than there are lines. */
  lemma {:induction false} JoinLinesLength(lines: seq<seq<char>>)
    requires lines != []
    ensures |JoinLines(lines)| == TotalLength(lines) + |lines| - 1
  {
    if |lines| > 1 {
      JoinLinesLength(lines[1..]);
    }
  }

  /** `s` cut at every `'\n'`: one more piece than there are separators, the
      separators themselves dropped. */
  function SplitOnNewline(s: seq<char>): (r: seq<seq<char>>)
    ensures |r| >= 1
    ensures forall k :: 0 <= k < |r| ==> '\n' !in r[k]
  {
    if s == [] then [[]]
    else
      var rest := SplitOnNewline(s[1..]);
      if s[0] == '\n' then [[]] + rest
      else [[s[0]] + rest[0]] + rest[1..]
  }

  /** Cutting moves no character: every character of a piece is a
      character of the text. */
  lemma {:induction false} SplitOnNewlineChars(s: seq<char>)
    ensures forall k, c :: 0 <= k < |SplitOnNewline(s)| && c in SplitOnNewline(s)[k] ==> c in s
  {
    if s != [] {
      var rest := SplitOnNewline(s[1..]);
      var r := SplitOnNewline(s);
      SplitOnNewlineChars(s[1..]);
      assert s == [s[0]] + s[1..];
      forall k, c | 0 <= k < |r| && c in r[k]
        ensures c in s
      {
        if s[0] == '\n' {
          assert r[k] == ([[]] + rest)[k];
          assert k > 0 && r[k] == rest[k - 1];
        } else if k == 0 {
          assert r[0] == [s[0]] + rest[0];
        } else {
          assert r[k] == rest[k];
        }
      }
    }
  }

  /** Python's `s.splitlines()` on text whose only line boundary is `'\n'`:
      the empty text has no lines, and a final `'\n'` ends the last line
      rather than starting an empty one. */
  function SplitLines(s: seq<char>): (r: seq<seq<char>>)
    requires OnlyNewlineBreaks(s)
    ensures s == [] <==> r == []
    ensures forall k :: 0 <= k < |r| ==> '\n' !in r[k]
  {
    if s == [] then []
    else
      var parts := SplitOnNewline(s);
      if s[|s| - 1] == '\n' then
        SplitOnNewlineLast(s);
        parts[..|parts| - 1]
      else parts
  }

  /** `SplitLines` moves no character: every character of a line is a
      character of the text. */
  lemma SplitLinesChars(s: seq<char>)
    requires OnlyNewlineBreaks(s)
    ensures forall k, c :: 0 <= k < |SplitLines(s)| && c in SplitLines(s)[k] ==> c in s
  {
    if s != [] {
      SplitOnNewlineChars(s);
      var parts := SplitOnNewline(s);
      if s[|s| - 1] == '\n' {
        SplitOnNewlineLast(s);
        forall k | 0 <= k < |parts| - 1
          ensures parts[..|parts| - 1][k] == parts[k]
        {
        }
      }
    }
  }

  /** A text that ends in `'\n'` splits into at least two pieces, the last of
      them empty. */
  lemma {:induction false} SplitOnNewlineLast(s: seq<char>)
    requires s != [] && s[|s| - 1] == '\n'
    ensures |SplitOnNewline(s)| >= 2
    ensures SplitOnNewline(s)[|SplitOnNewline(s)| - 1] == []
  {
    if |s| > 1 {
      SplitOnNewlineLast(s[1..]);
    }
  }

  /** Splitting at the separators and joining with them again gives back the
      text. */
  lemma {:induction false} JoinSplitOnNewline(s: seq<char>)
    ensures JoinLines(SplitOnNewline(s)) == s
  {
    if s != [] {
      var rest := SplitOnNewline(s[1..]);
      JoinSplitOnNewline(s[1..]);
      if s[0] == '\n' {
        assert ([[]] + rest)[1..] == rest;
      } else if |rest| > 1 {
        assert ([[s[0]] + rest[0]] + rest[1..])[1..] == rest[1..];
        assert JoinLines(rest) == rest[0] + "\n" + JoinLines(rest[1..]);
      }
    }
  }

  /** Appending a line adds one separator and the line. */
  lemma {:induction false} JoinLinesSnoc(lines: seq<seq<char>>, last: seq<char>)
    requires lines != []
    ensures JoinLines(lines + [last]) == JoinLines(lines) + "\n" + last
  {
    if |lines| > 1 {
      JoinLinesSnoc(lines[1..], last);
      assert (lines + [last])[1..] == lines[1..] + [last];
    }
  }

  /** Nothing is lost by `SplitLines`: the lines joined with `'\n'` give back
      the text, up to the final `'\n'` that ends the last line. */
  lemma SplitLinesLosesNothing(s: seq<char>)
    requires OnlyNewlineBreaks(s)
    ensures s != [] && s[|s| - 1] == '\n' ==> JoinLines(SplitLines(s)) + "\n" == s
    ensures s == [] || s[|s| - 1] != '\n' ==> JoinLines(SplitLines(s)) == s
  {
    JoinSplitOnNewline(s);
    if s != [] && s[|s| - 1] == '\n' {
      var parts := SplitOnNewline(s);
      SplitOnNewlineLast(s);
      assert parts == parts[..|parts| - 1] + [[]];
      JoinLinesSnoc(parts[..|parts| - 1], []);
    }
  }

  /** Cutting a line free of `'\n'` off the front of a text. */
  lemma {:induction false} SplitOnNewlineCons(line: seq<char>, rest: seq<char>)
    requires '\n' !in line
    ensures SplitOnNewline(line + "\n" + rest) == [line] + SplitOnNewline(rest)
  {
    if line == [] {
      assert ([] + "\n" + rest)[1..] == rest;
    } else {
      SplitOnNewlineCons(line[1..], rest);
      assert (line + "\n" + rest)[1..] == line[1..] + "\n" + rest;
      assert [line[0]] + line[1..] == line;
    }
  }

  /** `splitlines` of a line free of line boundaries, a `'\n'` and a
      nonempty rest is that line followed by the lines of the rest. */
  lemma SplitLinesCons(line: seq<char>, rest: seq<char>)
    requires NoLineBreaks(line) && OnlyNewlineBreaks(rest) && rest != []
    ensures OnlyNewlineBreaks(line + "\n" + rest)
    ensures SplitLines(line + "\n" + rest) == [line] + SplitLines(rest)
  {
    var s := line + "\n" + rest;
    assert '\n' !in line by {
      assert IsLineBreak('\n');
    }
    SplitOnNewlineCons(line, rest);
    assert s[|s| - 1] == rest[|rest| - 1];
    if rest[|rest| - 1] == '\n' {
      SplitOnNewlineLast(rest);
      var p := SplitOnNewline(rest);
      assert ([line] + p)[..|p|] == [line] + p[..|p| - 1];
    }
  }

  /** A text free of `'\n'` is a single piece. */
  lemma {:induction false} SplitOnNewlineSingle(line: seq<char>)
    requires '\n' !in line
    ensures SplitOnNewline(line) == [line]
  {
    if line != [] {
      SplitOnNewlineSingle(line[1..]);
      assert [line[0]] + line[1..] == line;
    }
  }

  /** Joining lines free of `'\n'` and cutting at the separators gives back
      the lines. */
  lemma {:induction false} SplitOnNewlineOfJoin(lines: seq<seq<char>>)
    requires lines != []
    requires forall k :: 0 <= k < |lines| ==> '\n' !in lines[k]
    ensures SplitOnNewline(JoinLines(lines)) == lines
  {
    if |lines| == 1 {
      SplitOnNewlineSingle(lines[0]);
    } else {
      SplitOnNewlineOfJoin(lines[1..]);
      SplitOnNewlineCons(lines[0], JoinLines(lines[1..]));
    }
  }

  /** Every character of the joined text is a separator or comes from one of
      the lines. */
  lemma {:induction false} JoinLinesChars(lines: seq<seq<char>>)
    requires forall k :: 0 <= k < |lines| ==> NoLineBreaks(lines[k])
    ensures OnlyNewlineBreaks(JoinLines(lines))
    ensures forall c :: c in JoinLines(lines) && c != '\n' ==> !IsLineBreak(c)
  {
    if |lines| > 1 {
      JoinLinesChars(lines[1..]);
    }
  }

  /** `'\n'.join` then `splitlines` is the identity on lines free of line
      boundaries whose last line is not empty (an empty last line is dropped
      by `splitlines`). */
  lemma SplitLinesOfJoinLines(lines: seq<seq<char>>)
    requires forall k :: 0 <= k < |lines| ==> NoLineBreaks(lines[k])
    requires lines != [] ==> lines[|lines| - 1] != []
    ensures OnlyNewlineBreaks(JoinLines(lines))
    ensures SplitLines(JoinLines(lines)) == lines
  {
    JoinLinesChars(lines);
    if lines != [] {
      var n := |lines|;
      var last := lines[n - 1];
      JoinLinesEndsWith(lines);
      assert last[|last| - 1] in last;
      assert !IsLineBreak(last[|last| - 1]);
      SplitOnNewlineOfJoin(lines);
    }
  }

  /** The joined text ends with the last line. */
  lemma JoinLinesEndsWith(lines: seq<seq<char>>)
    ensures lines != [] ==> |JoinLines(lines)| >= |lines[|lines| - 1]|
    ensures lines != [] ==>
      JoinLines(lines)[|JoinLines(lines)| - |lines[|lines| - 1]|..] == lines[|lines| - 1]
  {
    var n := |lines|;
    if n > 1 {
      assert lines == lines[..n - 1] + [lines[n - 1]];
      JoinLinesSnoc(lines[..n - 1], lines[n - 1]);
    }
  }

  /** `'\n'.join` with a final `'\n'` added, then `splitlines`, is the
      identity on a nonempty list of lines free of line boundaries. */
  lemma SplitLinesOfJoinLinesNewline(lines: seq<seq<char>>)
    requires lines != []
    requires forall k :: 0 <= k < |lines| ==> NoLineBreaks(lines[k])
    ensures OnlyNewlineBreaks(JoinLines(lines) + "\n")
    ensures SplitLines(JoinLines(lines) + "\n") == lines
  {
    JoinLinesChars(lines);
    var padded := lines + [[]];
    JoinLinesSnoc(lines, []);
    var s := JoinLines(padded);
    assert s == JoinLines(lines) + "\n";
    forall k | 0 <= k < |padded|
      ensures '\n' !in padded[k]
    {
      if k < |lines| {
        assert NoLineBreaks(lines[k]);
      }
    }
    SplitOnNewlineOfJoin(padded);
    assert s[|s| - 1] == '\n';
    assert SplitOnNewline(s)[..|lines|] == lines;
  }

  /** An uppercase hexadecimal digit. */
  predicate IsUpperHexDigit(c: char) {
    '0' <= c <= '9' || 'A' <= c <= 'F'
  }

  /** Every character of `s` is an uppercase hexadecimal digit. */
  predicate IsUpperHex(s: seq<char>) {
    forall k :: 0 <= k < |s| ==> IsUpperHexDigit(s[k])
  }

  /** The uppercase digit for a value below sixteen. */
  function HexDigit(d: nat): (c: char)
    requires d < 16
    ensures IsUpperHexDigit(c)
    ensures c == '0' <==> d == 0
  {
    if d < 10 then ('0' as int + d) as char else ('A' as int + d - 10) as char
  }

  /** The value of an uppercase hexadecimal digit. */
  function DigitValue(c: char): (d: nat)
    requires IsUpperHexDigit(c)
    ensures d < 16
  {
    if c <= '9' then c as int - '0' as int else c as int - 'A' as int + 10
  }

  /** The value of a string of uppercase hexadecimal digits, most significant
      first; the empty string is worth zero. */
  function HexValue(s: seq<char>): nat
    requires IsUpperHex(s)
  {
    if s == [] then 0 else 16 * HexValue(s[..|s| - 1]) + DigitValue(s[|s| - 1])
  }

  /** Python's `hex(n)[2:].upper()` for a non-negative `n`: the shortest
      uppercase hexadecimal numeral for `n` (so `"0"` for zero). */
  function UpperHex(n: nat): (r: seq<char>)
    ensures IsUpperHex(r)
    ensures |r| >= 1
    ensures |r| == 1 <==> n < 16
    ensures n < 256 ==> |r| <= 2
    ensures 256 <= n ==> |r| >= 3
  {
    if n < 16 then [HexDigit(n)] else UpperHex(n / 16) + [HexDigit(n % 16)]
  }

  /** `UpperHex` writes exactly the value it is given. */
  lemma {:induction false} HexValueOfUpperHex(n: nat)
    ensures HexValue(UpperHex(n)) == n
  {
    if n >= 16 {
      HexValueOfUpperHex(n / 16);
      var r := UpperHex(n);
      assert r[..|r| - 1] == UpperHex(n / 16);
    }
  }

  /** `UpperHex` writes no leading zero: it is the shortest numeral for
      its value. */
  lemma {:induction false} UpperHexNoLeadingZero(n: nat)
    requires n > 0
    ensures UpperHex(n)[0] != '0'
  {
    if n >= 16 {
      UpperHexNoLeadingZero(n / 16);
    }
  }

  /** A leading `'0'` does not change the value of a numeral. */
  lemma {:induction false} HexValueLeadingZero(s: seq<char>)
    requires IsUpperHex(s)
    ensures IsUpperHex("0" + s)
    ensures HexValue("0" + s) == HexValue(s)
  {
    if s != [] {
      HexValueLeadingZero(s[..|s| - 1]);
      assert ("0" + s)[..|s|] == "0" + s[..|s| - 1];
    }
  }
}

=== FILE: round_trip.dfy ===
/** How the two directions of the codec fit together: decoding what was
    encoded gives the rows back, decoding then encoding (what `main` in
    `shell.py` does) settles after one pass when there are at most 256 data
    lines and not beyond, and some of the ways the round trip breaks. */
module RoundTrip {
  import opened PyStr
  import opened Shell

  /** A row the dump format can carry: chunked the way decoding chunks,
      starting with the implicit `'0'` nibble, and free of line
      boundaries. */
  predicate WellFormedRow(row: Row) {
    && IsChunked(row)
    && row[0] != [] && row[0][0] == '0'
    && forall k :: 0 <= k < |row| ==> NoLineBreaks(row[k])
  }

  /** No chunk of any row holds a line boundary. */
  predicate LineBreakFree(raw: seq<Row>) {
    forall i, k :: 0 <= i < |raw| && 0 <= k < |raw[i]| ==> NoLineBreaks(raw[i][k])
  }

  /** Joining chunks free of line boundaries gives text free of them. */
  lemma {:induction false} JoinNoLineBreaks(row: Row)
    requires forall k :: 0 <= k < |row| ==> NoLineBreaks(row[k])
    ensures NoLineBreaks(Join(row))
  {
    if row != [] {
      JoinNoLineBreaks(row[1..]);
    }
  }

  /** Printable ASCII text holds no line boundary. The explicit witness
      keeps the proof cheap and stable. */
  lemma PrintableNoLineBreaks(s: Text)
    requires forall k :: 0 <= k < |s| ==> ' ' <= s[k] <= '~'
    ensures NoLineBreaks(s)
  {
    forall c | c in s
      ensures !IsLineBreak(c)
    {
      var k :| 0 <= k < |s| && s[k] == c;
    }
  }

  /** The literal pieces the ruler lines are built from hold no line
      boundary. Checking the short pieces one by one keeps the proof cheap
      and stable. */
  lemma RulerPiecesNoLineBreaks()
    ensures NoLineBreaks(Gap) && NoLineBreaks(HexColumns)
    ensures NoLineBreaks("XX: ") && NoLineBreaks("XX:")
    ensures NoLineBreaks("1") && NoLineBreaks("2") && NoLineBreaks("3")
  {
    PrintableNoLineBreaks(Gap);
    PrintableNoLineBreaks(HexColumns);
    PrintableNoLineBreaks("XX: ");
  }

  /** The two ruler lines hold no line boundary, and the header is the two
      of them each ended by `'\n'`. */
  lemma HeaderLines()
    ensures NoLineBreaks(RulerTens) && NoLineBreaks(RulerDigits)
    ensures Header == JoinLines([RulerTens, RulerDigits]) + "\n"
  {
    RulerPiecesNoLineBreaks();
    // Built up piece by piece: checking the 52- and 67-character literals
    // in one step is costly and unstable.
    var t1 := "XX: " + Gap;
    ConcatNoLineBreaks("XX: ", Gap);
    var t2 := t1 + "1";
    ConcatNoLineBreaks(t1, "1");
    var t3 := t2 + Gap;
    ConcatNoLineBreaks(t2, Gap);
    var t4 := t3 + "2";
    ConcatNoLineBreaks(t3, "2");
    var t5 := t4 + Gap;
    ConcatNoLineBreaks(t4, Gap);
    ConcatNoLineBreaks(t5, "3");
    var d1 := "XX:" + HexColumns;
    ConcatNoLineBreaks("XX:", HexColumns);
    var d2 := d1 + HexColumns;
    ConcatNoLineBreaks(d1, HexColumns);
    var d3 := d2 + HexColumns;
    ConcatNoLineBreaks(d2, HexColumns);
    ConcatNoLineBreaks(d3, HexColumns);
    assert [RulerTens, RulerDigits][1..] == [RulerDigits];
  }

  /** A data line holds no line boundary when its row holds none: the
      label is hex digits, and the rest is a colon, row text and `'0'`. */
  lemma EncodeLineNoLineBreaks(i: nat, row: Row)
    requires forall k :: 0 <= k < |row| ==> NoLineBreaks(row[k])
    ensures NoLineBreaks(EncodeLine(i, row))
  {
    var text := Join(row);
    JoinNoLineBreaks(row);
    var shifted := Slice(text, 1, |text|);
    SliceNoLineBreaks(text, 1, |text|);
    LabelNoLineBreaks(i);
    ConcatNoLineBreaks(Label(i), ":");
    ConcatNoLineBreaks(Label(i) + ":", shifted);
    ConcatNoLineBreaks(Label(i) + ":" + shifted, "0");
  }

  /** A label is hex digits, so it holds no line boundary. */
  lemma LabelNoLineBreaks(i: nat)
    ensures NoLineBreaks(Label(i))
  {
    var prefix := Label(i);
    LabelValue(i);
    forall c | c in prefix
      ensures !IsLineBreak(c)
    {
      var k :| 0 <= k < |prefix| && prefix[k] == c;
      assert IsUpperHexDigit(prefix[k]);
    }
  }

  /** The data lines of rows free of line boundaries hold none either. */
  lemma EncodedLinesNoLineBreaks(raw: seq<Row>)
    requires LineBreakFree(raw)
    ensures forall i :: 0 <= i < |raw| ==> NoLineBreaks(EncodedLines(raw)[i])
  {
    forall i | 0 <= i < |raw|
      ensures NoLineBreaks(EncodedLines(raw)[i])
    {
      EncodeLineNoLineBreaks(i, raw[i]);
    }
  }

  /** The lines of an encoded dump are the two ruler lines followed by one
      data line per row, in order; the text uses no line boundary other
      than `'\n'`. */
  lemma SplitEncoded(raw: seq<Row>)
    requires LineBreakFree(raw)
    ensures OnlyNewlineBreaks(RawToContents(raw))
    ensures SplitLines(RawToContents(raw)) == [RulerTens, RulerDigits] + EncodedLines(raw)
  {
    HeaderLines();
    var data := EncodedLines(raw);
    EncodedLinesNoLineBreaks(raw);
    if data == [] {
      SplitLinesOfJoinLinesNewline([RulerTens, RulerDigits]);
      NothingBehind([RulerTens, RulerDigits]);
    } else {
      SplitTwoInFront(RulerTens, RulerDigits, data);
      Regroup(RulerTens, "\n", RulerDigits, "\n", JoinLines(data));
    }
  }

  /** Appending nothing leaves a list as it is. */
  lemma NothingBehind<T>(xs: seq<T>)
    ensures xs + [] == xs
  {
  }

  /** Concatenation regrouped to the right after its first two parts. */
  lemma Regroup<T>(p: seq<T>, q: seq<T>, r: seq<T>, s: seq<T>, t: seq<T>)
    ensures p + q + r + s + t == p + q + (r + s + t)
  {
  }

  /** Two lines each ended by `'\n'` in front of nonempty lines, all free
      of line boundaries and the last one not empty, split back into the
      two lines and the rest. */
  lemma SplitTwoInFront(a: Text, b: Text, data: seq<Text>)
    requires NoLineBreaks(a) && NoLineBreaks(b)
    requires data != [] && data[|data| - 1] != []
    requires forall k :: 0 <= k < |data| ==> NoLineBreaks(data[k])
    ensures OnlyNewlineBreaks(a + "\n" + (b + "\n" + JoinLines(data)))
    ensures SplitLines(a + "\n" + (b + "\n" + JoinLines(data))) == [a, b] + data
  {
    var rest := JoinLines(data);
    var tail := b + "\n" + rest;
    assert rest != [] by {
      JoinLinesEndsWith(data);
    }
    assert OnlyNewlineBreaks(rest) && SplitLines(rest) == data by {
      SplitLinesOfJoinLines(data);
    }
    assert OnlyNewlineBreaks(tail) && SplitLines(tail) == [b] + data by {
      SplitLinesCons(b, rest);
    }
    SplitLinesCons(a, tail);
    TwoInFront(a, b, data);
  }

  /** Two elements in front of a list, one at a time. */
  lemma TwoInFront<T>(x: T, y: T, rest: seq<T>)
    ensures [x] + ([y] + rest) == [x, y] + rest
  {
  }

  /** A well-formed row below index 256 survives one data line unchanged. */
  lemma DecodeEncodeLine(i: nat, row: Row)
    requires i < 256
    requires WellFormedRow(row)
    ensures DecodeLine(EncodeLine(i, row)) == row
  {
    var text := Join(row);
    assert text == row[0] + Join(row[1..]);
    assert text != [] && text[0] == '0';
    EncodeLineShape(i, row);
    var line := EncodeLine(i, row);
    assert LineDigits(line) == "0" + text[1..];
    assert "0" + text[1..] == text;
    ChunksOfJoin(row);
  }

  /** Rows that are all well formed hold no line boundary. */
  lemma WellFormedLineBreakFree(raw: seq<Row>)
    requires forall i :: 0 <= i < |raw| ==> WellFormedRow(raw[i])
    ensures LineBreakFree(raw)
  {
    forall i, k | 0 <= i < |raw| && 0 <= k < |raw[i]|
      ensures NoLineBreaks(raw[i][k])
    {
      assert WellFormedRow(raw[i]);
    }
  }

  /** Decoding what was encoded gives the rows back, for up to 256
      well-formed rows (two-digit labels are what decoding expects). */
  lemma RoundTrip(raw: seq<Row>)
    requires |raw| <= 256
    requires forall i :: 0 <= i < |raw| ==> WellFormedRow(raw[i])
    ensures OnlyNewlineBreaks(RawToContents(raw))
    ensures ContentsToRaw(RawToContents(raw)) == raw
  {
    WellFormedLineBreakFree(raw);
    SplitEncoded(raw);
    var decoded := ContentsToRaw(RawToContents(raw));
    var lines := SplitLines(RawToContents(raw));
    assert |decoded| == |raw|;
    forall i | 0 <= i < |raw|
      ensures decoded[i] == raw[i]
    {
      assert lines[i + 2] == EncodeLine(i, raw[i]);
      DecodeEncodeLine(i, raw[i]);
      assert decoded[i] == DecodeLine(lines[i + 2]);
    }
  }

  /** Decoding then re-encoding text the codec produced gives the same text
      back. */
  lemma TextRoundTrip(raw: seq<Row>)
    requires |raw| <= 256
    requires forall i :: 0 <= i < |raw| ==> WellFormedRow(raw[i])
    ensures OnlyNewlineBreaks(RawToContents(raw))
    ensures RawToContents(ContentsToRaw(RawToContents(raw))) == RawToContents(raw)
  {
    RoundTrip(raw);
  }

  /** The row of a data line free of line boundaries is well formed. */
  lemma DecodeLineWellFormed(line: Text)
    requires NoLineBreaks(line)
    ensures WellFormedRow(DecodeLine(line))
  {
    var middle := Slice(line, 3, |line| - 1);
    SliceNoLineBreaks(line, 3, |line| - 1);
    ConcatNoLineBreaks("0", middle);
    var digits := LineDigits(line);
    assert digits == "0" + middle;
    ChunksNoLineBreaks(digits);
    assert DecodeLine(line) == Chunks(digits);
  }

  /** The chunks of text free of line boundaries hold none either. */
  lemma ChunksNoLineBreaks(s: Text)
    requires NoLineBreaks(s)
    ensures forall k :: 0 <= k < |Chunks(s)| ==> NoLineBreaks(Chunks(s)[k])
  {
    forall k | 0 <= k < |Chunks(s)|
      ensures NoLineBreaks(Chunks(s)[k])
    {
      SliceNoLineBreaks(s, 2 * k, 2 * k + 2);
    }
  }

  /** No line of newline-separated text holds a line boundary. */
  lemma SplitLinesNoLineBreaks(contents: Text)
    requires OnlyNewlineBreaks(contents)
    ensures forall k :: 0 <= k < |SplitLines(contents)| ==> NoLineBreaks(SplitLines(contents)[k])
  {
    var lines := SplitLines(contents);
    SplitLinesChars(contents);
    forall k, c | 0 <= k < |lines| && c in lines[k]
      ensures !IsLineBreak(c)
    {
      assert c in contents && c != '\n';
    }
  }

  /** Every row decoding produces is well formed, whatever the text. */
  lemma DecodedRowsWellFormed(contents: Text)
    requires OnlyNewlineBreaks(contents)
    ensures forall i :: 0 <= i < |ContentsToRaw(contents)| ==> WellFormedRow(ContentsToRaw(contents)[i])
  {
    var raw := ContentsToRaw(contents);
    var lines := SplitLines(contents);
    SplitLinesNoLineBreaks(contents);
    forall i | 0 <= i < |raw|
      ensures WellFormedRow(raw[i])
    {
      assert raw[i] == DecodeLine(lines[i + 2]);
      DecodeLineWellFormed(lines[i + 2]);
    }
  }

  /** `main`'s decode-then-encode is a normalisation: applied to its own
      output it changes nothing, as long as the text has at most 256 data
      lines. */
  lemma NormaliseIdempotent(contents: Text)
    requires OnlyNewlineBreaks(contents)
    requires |ContentsToRaw(contents)| <= 256
    ensures OnlyNewlineBreaks(RawToContents(ContentsToRaw(contents)))
    ensures var once := RawToContents(ContentsToRaw(contents));
      RawToContents(ContentsToRaw(once)) == once
  {
    DecodedRowsWellFormed(contents);
    TextRoundTrip(ContentsToRaw(contents));
  }

  /** An empty row does not survive: its data line is the label, a colon
      and the filler, which decodes to the single chunk `"0"`. */
  lemma EmptyRowComesBackAsZero(raw: seq<Row>, i: nat)
    requires i < |raw| <= 256
    requires LineBreakFree(raw)
    requires raw[i] == []
    ensures OnlyNewlineBreaks(RawToContents(raw))
    ensures |ContentsToRaw(RawToContents(raw))| == |raw|
    ensures ContentsToRaw(RawToContents(raw))[i] == ["0"]
  {
    SplitEncoded(raw);
    EncodeLineShape(i, raw[i]);
    var lines := SplitLines(RawToContents(raw));
    assert lines[i + 2] == EncodeLine(i, raw[i]);
    assert |EncodeLine(i, raw[i])| == 4;
  }

  /** A row that does not start with the `'0'` nibble does not survive
      either: `["11"]` is written as `00:10` and read back as `["01"]`. */
  lemma LeadingNibbleLost()
    ensures EncodeLine(0, ["11"]) == "00:10"
    ensures DecodeLine(EncodeLine(0, ["11"])) == ["01"]
  {
    assert UpperHex(0) == "0";
    assert Label(0) == "00";
    assert Join(["11"]) == "11";
    var line := EncodeLine(0, ["11"]);
    assert line == "00:10";
    assert LineDigits(line) == "01";
    ChunkAt("01", 0);
  }

  /** The label of row 256 is `"100"`. */
  lemma Label256()
    ensures Label(256) == "100"
  {
    assert UpperHex(16) == "10";
    assert UpperHex(256) == "100";
  }

  /** Decoding the data line of row 256 leaves the colon in the digits. */
  lemma DigitsAt256(row: Row)
    ensures var text := Join(row);
      LineDigits(EncodeLine(256, row)) == "0:" + Slice(text, 1, |text|)
  {
    Label256();
    var text := Join(row);
    var shifted := Slice(text, 1, |text|);
    var line := EncodeLine(256, row);
    var middle := ":" + shifted;
    assert line == "100" + ":" + shifted + "0";
    Regroup3("100", ":", shifted, "0");
    Middle("100", middle, "0");
  }

  /** Concatenation regrouped around its two middle parts. */
  lemma Regroup3<T>(p: seq<T>, q: seq<T>, r: seq<T>, s: seq<T>)
    ensures p + q + r + s == p + (q + r) + s
  {
  }

  /** The middle part of a concatenation of three. */
  lemma Middle<T>(p: seq<T>, m: seq<T>, e: seq<T>)
    ensures (p + m + e)[|p|..|p| + |m|] == m
  {
  }

  /** From row 256 on the label has three digits, but decoding always cuts
      three characters, so the colon is left in the row: row 256 comes back
      with `"0:"` as its first chunk, one character longer than it went in. */
  lemma LabelOverflowAt256(raw: seq<Row>)
    requires |raw| > 256
    requires LineBreakFree(raw)
    ensures OnlyNewlineBreaks(RawToContents(raw))
    ensures |ContentsToRaw(RawToContents(raw))| == |raw|
    ensures ContentsToRaw(RawToContents(raw))[256][0] == "0:"
    ensures WellFormedRow(raw[256]) ==>
      |Join(ContentsToRaw(RawToContents(raw))[256])| == |Join(raw[256])| + 1
    ensures WellFormedRow(raw[256]) ==> ContentsToRaw(RawToContents(raw)) != raw
  {
    SplitEncoded(raw);
    var lines := SplitLines(RawToContents(raw));
    var line := lines[258];
    assert line == EncodeLine(256, raw[256]);
    var text := Join(raw[256]);
    var shifted := Slice(text, 1, |text|);
    DigitsAt256(raw[256]);
    var digits := LineDigits(line);
    var decoded := ContentsToRaw(RawToContents(raw))[256];
    assert decoded == DecodeLine(line);
    assert decoded[0] == Slice(digits, 0, 2);
    if WellFormedRow(raw[256]) {
      assert text == raw[256][0] + Join(raw[256][1..]);
      assert |Join(decoded)| == |text| + 1;
    }
  }

  /** Past 256 data lines `main`'s decode-then-encode does not settle: each
      further pass leaves one more colon in the data line of row 256, so the
      text changes again. */
  lemma NotSettledPast256(contents: Text)
    requires OnlyNewlineBreaks(contents)
    requires |ContentsToRaw(contents)| > 256
    ensures OnlyNewlineBreaks(RawToContents(ContentsToRaw(contents)))
    ensures var once := RawToContents(ContentsToRaw(contents));
      RawToContents(ContentsToRaw(once)) != once
  {
    var raw := ContentsToRaw(contents);
    DecodedRowsWellFormed(contents);
    WellFormedLineBreakFree(raw);
    var once := RawToContents(raw);
    LabelOverflowAt256(raw);
    var again := ContentsToRaw(once);
    DecodedRowsWellFormed(once);
    WellFormedLineBreakFree(again);
    SplitEncoded(raw);
    SplitEncoded(again);
    var before := Join(raw[256]);
    var after := Join(again[256]);
    assert before != [] by {
      assert before == raw[256][0] + Join(raw[256][1..]);
    }
    assert |after| == |before| + 1;
    EncodeLineLength(256, raw[256]);
    EncodeLineLength(256, again[256]);
    assert SplitLines(once)[258] == EncodeLine(256, raw[256]);
    assert SplitLines(RawToContents(again))[258] == EncodeLine(256, again[256]);
    assert |EncodeLine(256, again[256])| != |EncodeLine(256, raw[256])|;
  }
}

=== FILE: shell.dfy ===
/** The hex-dump codec of `shell.py`. A dump is two ruler lines followed by
    one line per row: a hexadecimal label (two digits below row 256), a
    colon, the row's hex characters shifted by one nibble, and one filler
    character. Decoding turns each data line into a row of two-character
    chunks; encoding turns rows back into dump text. Chunks stay strings:
    nothing is parsed as a byte and nothing is validated. */
module Shell {
  import opened PyStr

  /** Dump text. */
  type Text = seq<char>

  /** One piece of a decoded row: normally two hex characters, kept as a
      string. */
  type Chunk = seq<char>

  /** The chunks of one data line, in order. */
  type Row = seq<Chunk>

  /** Sixteen column headings of the second ruler line. */
  const HexColumns: Text := "0123456789ABCDEF"

  /** Fifteen spaces: the distance between two marks of the first ruler
      line. */
  const Gap: Text := "               "

  /** The first header line, `XX:` then a mark every sixteen columns:
      `"XX:                1               2               3"`. */
  const RulerTens: Text := "XX: " + Gap + "1" + Gap + "2" + Gap + "3"

  /** The second header line, `XX:` then the 64 column headings `0`..`F`
      four times over. */
  const RulerDigits: Text := "XX:" + HexColumns + HexColumns + HexColumns + HexColumns

  /** The fixed two-line header `rawToContents` puts in front of the data
      lines, each ruler line ended by `'\n'`. */
  const Header: Text := RulerTens + "\n" + RulerDigits + "\n"

  /** `zeroPad2`: a one-character string gets a `'0'` in front; every other
      string, the empty one included, is returned as it is. So a nonempty
      string comes out at least two characters wide, with only zeros added
      on the left. */
  function ZeroPad2(s: Text): (r: Text)
    ensures |r| >= |s|
    ensures r == seq(|r| - |s|, _ => '0') + s
    ensures |s| >= 1 ==> |r| == if |s| < 2 then 2 else |s|
    ensures |s| == 0 ==> r == []
  {
    if |s| == 1 then "0" + s else s
  }

  /** The label of data line `i`, `zeroPad2(hex(i)[2:].upper())`: exactly
      two characters wide below 256 and wider from 256 on. */
  function Label(i: nat): (r: Text)
    ensures i < 256 ==> |r| == 2
    ensures 256 <= i ==> |r| >= 3
  {
    ZeroPad2(UpperHex(i))
  }

  /** A label is an uppercase hexadecimal numeral worth its line's index,
      so the labels of two different lines differ. */
  lemma LabelValue(i: nat)
    ensures IsUpperHex(Label(i))
    ensures HexValue(Label(i)) == i
  {
    var h := UpperHex(i);
    HexValueOfUpperHex(i);
    if |h| == 1 {
      HexValueLeadingZero(h);
    }
  }

  /** The list comprehension `[s[j:j+2] for j in range(0, len(s), 2)]`:
      `s` cut into two-character pieces, the last one a single character
      when `s` has odd length. */
  function Chunks(s: Text): (r: Row)
    ensures |r| == (|s| + 1) / 2
    ensures forall k :: 0 <= k < |r| - 1 ==> |r[k]| == 2
    ensures |r| > 0 ==> |r[|r| - 1]| == 2 - |s| % 2
  {
    seq((|s| + 1) / 2, k => Slice(s, 2 * k, 2 * k + 2))
  }

  /** Chunk `k` is the two characters from position `2 * k` on, or the
      single character left at the end. */
  lemma ChunkAt(s: Text, k: nat)
    requires k < (|s| + 1) / 2
    ensures 2 * k + 2 <= |s| ==> Chunks(s)[k] == s[2 * k..2 * k + 2]
    ensures |s| < 2 * k + 2 ==> Chunks(s)[k] == s[2 * k..]
  {
    assert Chunks(s)[k] == Slice(s, 2 * k, 2 * k + 2);
  }

  /** A text longer than two characters is its first two characters, then
      the chunks of the rest. */
  lemma ChunksUnfold(s: Text)
    requires |s| > 2
    ensures Chunks(s) == [s[..2]] + Chunks(s[2..])
  {
    var t := s[2..];
    var a := Chunks(s);
    var b := [s[..2]] + Chunks(t);
    ChunkAt(s, 0);
    forall k | 1 <= k < |a|
      ensures a[k] == b[k]
    {
      ChunkAt(s, k);
      ChunkAt(t, k - 1);
      if 2 * k + 2 <= |s| {
        assert t[2 * k - 2..2 * k] == s[2 * k..2 * k + 2];
      } else {
        assert t[2 * k - 2..] == s[2 * k..];
      }
    }
  }

  /** Chunking loses nothing: the chunks joined give back the text. */
  lemma {:induction false} JoinChunks(s: Text)
    ensures Join(Chunks(s)) == s
  {
    if |s| > 2 {
      ChunksUnfold(s);
      JoinChunks(s[2..]);
      assert ([s[..2]] + Chunks(s[2..]))[1..] == Chunks(s[2..]);
    }
  }

  /** The shape `Chunks` produces: at least one chunk, every chunk of two
      characters except the last, which has one or two. */
  predicate IsChunked(row: Row) {
    && |row| > 0
    && (forall k :: 0 <= k < |row| - 1 ==> |row[k]| == 2)
    && 1 <= |row[|row| - 1]| <= 2
  }

  /** Rows of that shape are exactly what chunking their joined text gives
      back: `Chunks` is the inverse of `Join` on them. */
  lemma {:induction false} ChunksOfJoin(row: Row)
    requires IsChunked(row)
    ensures Chunks(Join(row)) == row
  {
    if |row| == 1 {
      assert Join(row) == row[0];
    } else {
      var rest := row[1..];
      assert IsChunked(rest) by {
        assert forall k :: 0 <= k < |rest| - 1 ==> rest[k] == row[k + 1];
      }
      ChunksOfJoin(rest);
      var j := Join(row);
      assert j == row[0] + Join(rest);
      assert |row[0]| == 2;
      assert |Join(rest)| >= 1 by {
        JoinChunks(Join(rest));
      }
      ChunksUnfold(j);
      assert j[..2] == row[0];
      assert j[2..] == Join(rest);
      assert [row[0]] + rest == row;
    }
  }

  /** The text of one data line between the label and the filler,
      `line[3:len(line)-1]`, behind the implicit leading `'0'` nibble. */
  function LineDigits(line: Text): (r: Text)
    ensures |line| <= 4 ==> r == "0"
    ensures |line| >= 4 ==> r == "0" + line[3..|line| - 1]
  {
    "0" + Slice(line, 3, |line| - 1)
  }

  /** The row of one data line. It always has at least one chunk and starts
      with `'0'`; a line of four characters or fewer gives the single chunk
      `"0"` rather than an error, and a line of 67 characters (label, colon
      and 64 hex characters) gives 32 two-character chunks. */
  function DecodeLine(line: Text): (r: Row)
    ensures Join(r) == LineDigits(line)
    ensures IsChunked(r)
    ensures r[0][0] == '0'
    ensures |line| <= 4 ==> r == ["0"]
    ensures |line| >= 4 ==> |r| == (|line| - 2) / 2
    ensures |line| >= 4 ==> (|r[|r| - 1]| == 1 <==> |line| % 2 == 0)
    ensures |line| == 67 ==> |r| == 32 && forall k :: 0 <= k < |r| ==> |r[k]| == 2
  {
    var digits := LineDigits(line);
    JoinChunks(digits);
    assert Slice(digits, 0, 2)[0] == '0';
    Chunks(digits)
  }

  /** `contentsToRaw`: the two header lines are dropped and every further
      line becomes one row, in order; text of fewer than three lines gives
      no rows. The text must not use a line boundary other than `'\n'`. */
  function ContentsToRaw(contents: Text): (raw: seq<Row>)
    requires OnlyNewlineBreaks(contents)
    ensures |SplitLines(contents)| <= 2 ==> raw == []
    ensures |SplitLines(contents)| >= 2 ==> |raw| == |SplitLines(contents)| - 2
    ensures forall i :: 0 <= i < |raw| ==>
      Join(raw[i]) == LineDigits(SplitLines(contents)[i + 2]) && IsChunked(raw[i])
  {
    var lines := SplitLines(contents);
    var data := Slice(lines, 2, |lines|);
    seq(|data|, i requires 0 <= i < |data| => DecodeLine(data[i]))
  }

  /** Data line `i` of the dump: the label, a colon, the row's characters
      without the first one, and a `'0'` filler; never shorter than four
      characters. */
  function EncodeLine(i: nat, row: Row): (r: Text)
    ensures |r| >= 4 && r[|r| - 1] == '0'
  {
    var text := Join(row);
    Label(i) + ":" + Slice(text, 1, |text|) + "0"
  }

  /** Below 256 a data line starts with the two-digit label and a colon and
      holds the row's text from its second character on before the filler,
      so it is three characters longer than a nonempty row text; an empty
      row gives just the label, the colon and the filler. */
  lemma EncodeLineShape(i: nat, row: Row)
    requires i < 256
    ensures |EncodeLine(i, row)| >= 4
    ensures EncodeLine(i, row)[..2] == Label(i) && EncodeLine(i, row)[2] == ':'
    ensures Join(row) != [] ==> |EncodeLine(i, row)| == |Join(row)| + 3
    ensures Join(row) != [] ==>
      EncodeLine(i, row)[3..|EncodeLine(i, row)| - 1] == Join(row)[1..]
    ensures Join(row) == [] ==> EncodeLine(i, row) == Label(i) + ":0"
  {
    var text := Join(row);
    var shifted := Slice(text, 1, |text|);
    LinePieces(Label(i), shifted);
  }

  /** A data line is its label, the colon, the row text less its first
      character and the filler: two characters longer than label and row
      text together, less one for the dropped character. */
  lemma EncodeLineLength(i: nat, row: Row)
    ensures Join(row) != [] ==> |EncodeLine(i, row)| == |Label(i)| + |Join(row)| + 1
    ensures Join(row) == [] ==> |EncodeLine(i, row)| == |Label(i)| + 2
  {
  }

  /** Where the pieces of `prefix + ":" + middle + "0"` sit. */
  lemma LinePieces(prefix: Text, middle: Text)
    ensures (prefix + ":" + middle + "0")[..|prefix|] == prefix
    ensures (prefix + ":" + middle + "0")[|prefix|] == ':'
    ensures (prefix + ":" + middle + "0")[|prefix| + 1..|prefix| + 1 + |middle|] == middle
  {
    var line := prefix + ":" + middle + "0";
    assert line == prefix + (":" + middle + "0");
  }

  /** The data lines of the dump, one per row, labelled by position. */
  function EncodedLines(raw: seq<Row>): seq<Text>
  {
    seq(|raw|, i requires 0 <= i < |raw| => EncodeLine(i, raw[i]))
  }

  /** `rawToContents`: the fixed header, then the data lines joined by
      `'\n'`, with no newline after the last one. */
  function RawToContents(raw: seq<Row>): (r: Text)
    ensures |r| >= |Header| && r[..|Header|] == Header
    ensures raw == [] ==> r == Header
    ensures raw != [] ==> r[|r| - 1] == '0'
  {
    var lines := EncodedLines(raw);
    JoinLinesEndsWith(lines);
    Header + JoinLines(lines)
  }
}
